=== FILE: README.md ===
# Order-form intake and status callback, modelled in Dafny

This project models the two serverless request handlers of a small storefront
integration:

- the **order-form intake handler** (`netlify/functions/airtable-order-form.ts`):
  it gates on the HTTP method, echoes an allowed CORS origin, filters the
  submitted form through a fixed field allow-list (sanitizing text), rejects an
  empty submission with 400, writes the record-store subset of the fields to the
  record store (Airtable), and then creates a draft order in the order backend
  (Shopify) whose outcome it ignores;
- the **status-callback handler** (`netlify/functions/airtableWebhook.js`): from
  a callback's `status` and `paid` members it updates the draft order, completes
  it, does both (update first) or does nothing, and answers 200 unless its body
  cannot be read, its `draftId` cannot be put into a request URL, or a request
  is rejected.

Each handler is a pure function from the request, the configuration and the
upstream services' replies to a pair `(Response, seq<OutboundCall>)`: the
response and the requests sent, in order.

Files and modules:

| file | module | contents |
|---|---|---|
| `wrappers.dfy` | `Wrappers` | `Option`, map lookup |
| `js_values.dfy` | `JsValues` | parsed JSON values, JavaScript truthiness, property reads, the raw event body |
| `http.dfy` | `Http` | responses, upstream replies, draft-order payloads, outbound calls |
| `text.dfy` | `Text` | `trim`, `split` on one character, `join`, and their lemmas |
| `text_examples.dfy` | `TextExamples` | cutting and trimming the list `"101, 202,303"` |
| `order_form.dfy` | `OrderForm` | the intake handler and its steps |
| `order_form_properties.dfy` | `OrderFormProperties` | properties of the intake handler |
| `status_callback.dfy` | `StatusCallback` | the callback handler |
| `status_callback_properties.dfy` | `StatusCallbackProperties` | properties of the callback handler |

What the model takes as parameters instead of computing:

- the HTML sanitizer (DOMPurify over JSDOM) is the function parameter
  `sanitize: string -> string`; nothing is claimed about what it removes;
- the `ALLOWED_ORIGINS` setting is the parameter `env: Option<string>`;
- each upstream request's outcome is a `Reply`: `Reply(ok, payload)`, where
  `payload` is `None` when `response.json()` rejects, or `NetworkError` when
  `fetch` itself rejects;
- `JSON.parse` is done before the model starts: the event body is `Absent`
  (`null`, `undefined` or `""`), `Malformed`, or `Parsed(value)`.

Behaviour as written that the model keeps:

- the record store is written **before** the draft order is created, and the
  draft order is created only when the record store answered ok with a JSON body;
- any reply from the order backend — not ok, unreadable, or a rejected request —
  is logged and dropped: the answer is 200 with the record store's reply;
- the draft order is sent even when it has no line items;
- the record sent to the record store never carries a draft-order id;
- an intake body that is not JSON, or is JSON `null`, is answered 500
  ("Something went wrong"), not 400; a missing body reads as `{}` and gets 400;
- a disallowed origin is not rejected: the allow-origin header is simply left out;
- the callback handler never checks the HTTP method, never validates `draftId`
  (a missing one becomes `undefined` in the request), never looks at a reply's
  status, and answers 500 (not 400) for a missing or unparsable body;
- the callback splices `draftId` into each request URL. For a `draftId` whose
  conversion to text throws (an object with its own `toString` member, or an
  array holding one), a wanted request is never sent and the answer is 500;
- `filter(Boolean)` on the origin list removes nothing, since every entry starts
  with `https://`; an unset setting therefore admits the origin `https://`.

## Model

| member | source | states |
|---|---|---|
| `Text.TrimStart` | netlify/functions/airtable-order-form.ts:23 | the result is a suffix of the input, everything dropped is whitespace, and it does not start with whitespace |
| `Text.TrimEnd` | netlify/functions/airtable-order-form.ts:23 | the result is a prefix of the input, everything dropped is whitespace, and it does not end with whitespace |
| `Text.Trim` | netlify/functions/airtable-order-form.ts:102 | the trimmed text is no longer than the input and neither starts nor ends with whitespace |
| `Text.TrimIsSlice` | netlify/functions/airtable-order-form.ts:23 | trimming keeps exactly the slice between a blank prefix and a blank suffix |
| `Text.TrimIdempotent` | netlify/functions/airtable-order-form.ts:102 | trimming a trimmed text changes nothing |
| `Text.Split` | netlify/functions/airtable-order-form.ts:101 | splitting on a separator yields one more piece than there are separators, none of which contains it |
| `Text.JoinSplit` | netlify/functions/airtable-order-form.ts:22 | joining the pieces with the separator gives back the original text |
| `Text.SplitJoin` | netlify/functions/airtable-order-form.ts:101 | splitting the join of separator-free pieces gives back those pieces |
| `OrderForm.AllowedOrigins` | netlify/functions/airtable-order-form.ts:21-24 | one allowed origin per comma-separated entry of the setting, each beginning with `https://` (so no entry is empty) |
| `OrderForm.AllowedOriginsAdmit` | netlify/functions/airtable-order-form.ts:21-32 | an origin is on the list iff it is `https://` followed by the trim of some entry, and such an origin is never empty |
| `OrderForm.AllowedOriginsFromSetting` | netlify/functions/airtable-order-form.ts:21-24 | an origin is on the configured allow-list iff it is `https://` followed by the trim of some comma-separated entry of the setting |
| `OrderForm.OriginAllowed` | netlify/functions/airtable-order-form.ts:21-32 | an origin earns the allow-origin header iff it is given and equals `https://` followed by the trim of some comma-separated entry of the setting |
| `OrderForm.CorsHeaders` | netlify/functions/airtable-order-form.ts:25-34 | the methods and headers entries are always present with their fixed values; the allow-origin entry is present iff the origin is given and some entry admits it, and then equals the origin |
| `OrderForm.FilterFields` | netlify/functions/airtable-order-form.ts:48-56 | a field is kept iff it is allow-listed and truthy in the body; kept text is the sanitizer's output, any other kept value is unchanged |
| `OrderForm.Submission` | netlify/functions/airtable-order-form.ts:45-56 | every key of the submission is on the intake allow-list |
| `OrderForm.RecordFor` | netlify/functions/airtable-order-form.ts:66-77 | the record holds exactly the submission's record-store fields with their values, never `variant_id` or `product_title` |
| `OrderForm.LineItems` | netlify/functions/airtable-order-form.ts:99-105 | without a non-empty text `variant_id` there are no items; with one, there is one quantity-1 item per comma-separated token, in order, carrying the trimmed token |
| `OrderForm.DraftOrderFor` | netlify/functions/airtable-order-form.ts:107-131 | shipping and billing addresses are equal and built from First, Last, Delivery Address, Phone and Delivery Zip Code; the customer and email come from First and Email; the tags are fixed |
| `OrderForm.Submit` | netlify/functions/airtable-order-form.ts:58-158 | an empty submission sends nothing; otherwise the record store is called first, and the draft order is created second exactly when the answer is 200 |
| `OrderForm.Handle` | netlify/functions/airtable-order-form.ts:20-169 | the CORS headers are on every response; OPTIONS gives 204 with no body and no call, any other non-POST gives 405 "Method Not Allowed" and no call; the status is one of 200, 204, 400, 405, 500; 200 iff two calls were made, record store first and draft order second |
| `OrderFormProperties.AllowListsNested` | netlify/functions/airtable-order-form.ts:9-74 | every record-store field is an intake field, and the intake fields missing from the record-store list are exactly `variant_id` and `product_title`, both of which are intake fields |
| `OrderFormProperties.PreflightIgnoresBody` | netlify/functions/airtable-order-form.ts:36-38 | an OPTIONS request is answered 204 identically whatever its body and whatever the upstream services would reply |
| `OrderFormProperties.RejectedIffNothingAllowListed` | netlify/functions/airtable-order-form.ts:48-64 | a POST with a parsed non-null body gets 400 "No valid fields provided." with no call iff no allow-listed field is truthy in it, whatever the sanitizer returns |
| `OrderFormProperties.MissingBodyRejected` | netlify/functions/airtable-order-form.ts:45-64 | a POST without a body is read as `{}` and answered 400 with no call |
| `OrderFormProperties.UnreadableBodyFails` | netlify/functions/airtable-order-form.ts:161-167 | a POST whose body is not JSON or is JSON `null` is answered 500 "Something went wrong" with no call |
| `OrderFormProperties.StoreFailureStopsBeforeBackend` | netlify/functions/airtable-order-form.ts:79-93 | for a POST whose body is an object with at least one truthy allow-listed field: when the record store's reply is not ok, unreadable, or the request is rejected, the answer is 500 and the only call is the record write |
| `OrderFormProperties.StoreSuccessThenBackend` | netlify/functions/airtable-order-form.ts:135-158 | for a POST whose body is an object with at least one truthy allow-listed field, once the record store replies ok with a JSON body: the draft order is created exactly once, after the record write, and the answer is 200 with the record store's reply whatever the order backend does |
| `OrderFormProperties.BackendCalledWithoutLineItems` | netlify/functions/airtable-order-form.ts:99-143 | for a POST whose body is an object with at least one truthy allow-listed field, once the record store replies ok with JSON: a submission without a usable variant list still creates a draft order, with no line items |
| `OrderFormProperties.BackendReplyIgnored` | netlify/functions/airtable-order-form.ts:145-151 | the order backend's reply never changes the response or the calls |
| `OrderFormProperties.RecordStoreSeesOnlyItsFields` | netlify/functions/airtable-order-form.ts:75-85 | every record write carries only record-store allow-listed keys, never `variant_id` or `product_title` |
| `OrderFormProperties.UnlistedFieldsIrrelevant` | netlify/functions/airtable-order-form.ts:48-56 | two bodies that agree on the allow-listed fields produce the same response and the same calls |
| `OrderFormProperties.EmptySettingAdmitsBareScheme` | netlify/functions/airtable-order-form.ts:21-24 | with the origin setting unset, the origin `https://` is echoed in the allow-origin header |
| `OrderFormProperties.LineItemsFollowTokens` | netlify/functions/airtable-order-form.ts:99-105 | the items correspond one-to-one, in order, to comma-free pieces whose join with commas is the variant list, each item carrying its trimmed piece and quantity 1 |
| `OrderFormProperties.ExampleVariantList` | netlify/functions/airtable-order-form.ts:100-104 | the list `"101, 202,303"` gives the items 101, 202 and 303, each with quantity 1, in that order |
| `TextExamples.ExampleTokens` | netlify/functions/airtable-order-form.ts:101 | `"101, 202,303"` splits into `"101"`, `" 202"`, `"303"` |
| `StatusCallback.Payload` | netlify/functions/airtableWebhook.js:6 | a payload is available iff the body parsed to something other than `null`, and it is that value |
| `StatusCallback.UpdateCall` | netlify/functions/airtableWebhook.js:17-30 | the update request carries the payload's `draftId` and `lineItems` unchanged and the note "Updated automatically from Airtable" |
| `StatusCallback.CompleteCall` | netlify/functions/airtableWebhook.js:35-41 | the completion request carries the payload's `draftId` |
| `StatusCallback.Handle` | netlify/functions/airtableWebhook.js:3-55 | the status is 200 or 500 with no headers; 200 always carries `{success: true}`; an unreadable body gives 500 with no call; at most two calls, and with two the update comes first; the status is 500 exactly when the body is unreadable, or a wanted update request is rejected, or a wanted completion request is rejected, or a request is wanted and the `draftId` cannot be converted to URL text (then no call is made) |
| `StatusCallbackProperties.UpdateIffStatusUpdated` | netlify/functions/airtableWebhook.js:16-31 | an update is sent iff the payload's `status` is exactly the string "updated" and its `draftId` can be converted to URL text |
| `StatusCallbackProperties.CompletionIffPaidTrue` | netlify/functions/airtableWebhook.js:34-42 | a completion is sent iff `paid` is exactly the boolean `true`, the `draftId` can be converted to URL text, and no update request before it was rejected |
| `StatusCallbackProperties.TruthyPaidIsNotEnough` | netlify/functions/airtableWebhook.js:34 | a truthy `paid` other than `true` sends no completion |
| `StatusCallbackProperties.CallsInOrderFromPayload` | netlify/functions/airtableWebhook.js:11-42 | the calls are none, the update, the completion, or the update then the completion, each built from the payload |
| `StatusCallbackProperties.RejectedCompletionFails` | netlify/functions/airtableWebhook.js:34-53 | when completion is wanted and no update request was rejected, a rejected completion request gives 500, after the update (if wanted) and the completion request; if the `draftId` cannot be converted to URL text, the answer is 500 with no request |
| `StatusCallbackProperties.RejectedUpdateStops` | netlify/functions/airtableWebhook.js:16-53 | a rejected update request ends the handler with 500 before any completion; if the `draftId` cannot be converted to URL text, the answer is 500 with no request |
| `StatusCallbackProperties.RepliesNeverInspected` | netlify/functions/airtableWebhook.js:17-47 | when no request is rejected, the outcome is identical for any reply status or body, and it is 200 `{success: true}` iff no wanted request has a `draftId` that cannot be converted to URL text |
| `StatusCallbackProperties.ToStringMemberFails` | netlify/functions/airtableWebhook.js:16-53 | `{"status": "updated", "draftId": {"toString": 1}}` sends no request and gives 500 |
| `StatusCallbackProperties.MissingDraftIdAccepted` | netlify/functions/airtableWebhook.js:11-47 | a payload without `draftId` still gets 200, and its requests carry an undefined id |
| `StatusCallbackProperties.OnlyReadMembersMatter` | netlify/functions/airtableWebhook.js:9-13 | payloads that agree on `status`, `draftId`, `lineItems` and `paid` give the same response and calls |

## Left out

- HTML sanitization: DOMPurify over JSDOM is the parameter `sanitize`; no claim is made about markup removal.
- `Number(id.trim())`: JavaScript's string-to-number conversion (NaN, hex, exponents, `Number("") == 0`, rounding past 2^53) is not modelled; a line item keeps the trimmed token text.
- OrderForm.LineItems: states the trimmed token of each item, not the numeric variant id the source sends, because the conversion above is left out.
- `fetch`, URLs, authentication headers and environment reads: requests are abstract `OutboundCall` values and the configuration is a parameter.
- `JSON.parse` and `JSON.stringify` internals: bodies arrive parsed; numbers are exact decimals rather than IEEE doubles (so a literal such as `1e-400`, which JavaScript reads as 0 and hence falsy, is truthy here); object key order is not kept.
- Prototype-chain property reads and `__proto__` keys: a property read finds only an object's own members.
- The text of runtime error messages: the callback handler's 500 body names the kind of fault, not the message.
- Requests that never settle: neither handler sets a timeout, so a hung `fetch` or `response.json()` means no response at all; `Reply` has no such outcome, only a rejection (`NetworkError`) or a reply.
- Console logging, including the order backend's error bodies the intake handler only logs.
- The hosting platform's handler types and response envelope beyond status, headers and body.

=== FILE: http.dfy ===
/**
 * What the handlers hand back to the hosting platform and what they send out:
 * responses, the replies of the two upstream services, and the outbound calls.
 */
module Http {
  import opened Wrappers
  import opened JsValues

  /** A JavaScript exception a handler catches and reports by its message. */
  datatype Fault =
    | InvalidBody       // `JSON.parse` failed, or a member was read from `null`
    | NetworkFailure    // `fetch` itself rejected
    | Unconvertible     // converting a value to text threw a TypeError

  /** A response body: none, plain text, `JSON.stringify` of a value, or
      `{"error": <message of the fault>}` whose text comes from the runtime. */
  datatype Body = NoBody | Text(text: string) | Json(value: Value) | ErrorMessage(fault: Fault)

  datatype Response = Response(statusCode: int, headers: map<string, string>, body: Body)

  /** What an awaited `fetch` produced: a reply with its `ok` flag and the body
      `response.json()` yields (`None` when that call rejects), or a rejection. */
  datatype Reply = Reply(ok: bool, payload: Option<Value>) | NetworkError

  /** `{"error": message}` with a fixed message. */
  function ErrorObject(message: string): (v: Value)
    ensures Member(v, "error") == Some(Str(message))
  {
    Obj(map["error" := Str(message)])
  }

  /** One line of a draft order: the trimmed variant token, before `Number` converts it. */
  datatype LineItem = LineItem(variantId: string, quantity: nat)

  /** An address block; `None` is a property JSON.stringify leaves out. */
  datatype Address = Address(
    firstName: Option<Value>,
    lastName: Option<Value>,
    address1: Option<Value>,
    phone: Option<Value>,
    zip: Option<Value>)

  datatype Customer = Customer(firstName: Option<Value>, email: Option<Value>)

  /** The `draft_order` member of the order backend's create request. */
  datatype DraftOrder = DraftOrder(
    email: Option<Value>,
    lineItems: seq<LineItem>,
    shippingAddress: Address,
    billingAddress: Address,
    customer: Customer,
    tags: string)

  /** A request a handler sends upstream, in the order it sends them. */
  datatype OutboundCall =
    | CreateRecord(fields: map<string, Value>)          // record store: POST {records: [{fields}]}
    | CreateDraftOrder(order: DraftOrder)               // order backend: POST draft_orders.json
    | UpdateDraftOrder(draftId: Option<Value>, lineItems: Option<Value>, note: string)
                                                        // order backend: PUT draft_orders/{id}.json
    | CompleteDraftOrder(draftId: Option<Value>)        // order backend: POST draft_orders/{id}/complete.json
}

=== FILE: js_values.dfy ===
/**
 * The values a handler sees after `JSON.parse`, and the two pieces of JavaScript
 * semantics both handlers lean on: truthiness and property reads.
 */
module JsValues {
  import opened Wrappers

  /** A parsed JSON value. A number is the decimal its literal denotes. */
  datatype Value =
    | Null
    | Bool(b: bool)
    | Num(n: real)
    | Str(s: string)
    | Arr(items: seq<Value>)
    | Obj(members: map<string, Value>)

  /** JavaScript truthiness: `null`, `false`, `0` and `""` are falsy; every array
      and every object, even an empty one, is truthy. */
  predicate Truthy(v: Value) {
    match v
    case Null => false
    case Bool(b) => b
    case Num(n) => n != 0.0
    case Str(s) => s != ""
    case Arr(_) => true
    case Obj(_) => true
  }

  /** The own members a property read `v[key]` can find. A JSON string, number,
      boolean or array has none of the keys either handler asks for. */
  function Members(v: Value): map<string, Value> {
    if v.Obj? then v.members else map[]
  }

  /** Property read `v[key]` on a non-null parsed value; `None` is `undefined`. */
  function Member(v: Value, key: string): (r: Option<Value>)
    ensures r.Some? <==> v.Obj? && key in v.members
    ensures r.Some? ==> r.value == v.members[key]
  {
    Get(Members(v), key)
  }

  /** Whether converting a parsed value to text (`${v}`) throws. The conversion
      calls `toString` and then `valueOf`, skipping members that are not callable.
      An object with its own `toString` member (never callable in parsed JSON)
      is left with the inherited `valueOf`, which returns the object itself, so
      the conversion throws a TypeError. Other objects give "[object Object]".
      An array converts through `join`, which converts each element. */
  predicate ToTextThrows(v: Value) {
    match v
    case Obj(m) => "toString" in m
    case Arr(items) => exists i :: 0 <= i < |items| && ToTextThrows(items[i])
    case _ => false
  }

  /** The `body` of an inbound event: missing (`null`, `undefined` or the empty
      string), text that is not JSON, or the value the text parses to. */
  datatype RawBody = Absent | Malformed | Parsed(value: Value)
}

=== FILE: order_form.dfy ===
/**
 * The order-form intake handler: a method gate, a CORS origin check, an
 * allow-list filter over the submitted fields, a record-store write and then a
 * draft-order creation whose outcome is swallowed.
 *
 * The handler is a pure function of the request, the configured origin list, the
 * HTML sanitizer and the replies of the two upstream services; it returns the
 * response together with the calls it issued, in order.
 */
module OrderForm {
  import opened Wrappers
  import opened JsValues
  import opened Text
  import opened Http

  /** The fields a submission may carry, in the order the handler visits them. */
  const AllowedFields: seq<string> := [
    "First", "Email", "Last", "Phone", "Delivery Address", "Delivery Zip Code",
    "Promo Code", "variant_id", "product_title"
  ]

  /** The fields the record store receives. */
  const RecordStoreFields: seq<string> := [
    "First", "Email", "Last", "Phone", "Delivery Address", "Delivery Zip Code",
    "Promo Code"
  ]

  const AllowMethodsHeader := "Access-Control-Allow-Methods"
  const AllowHeadersHeader := "Access-Control-Allow-Headers"
  const AllowOriginHeader := "Access-Control-Allow-Origin"
  const OriginScheme := "https://"
  const DraftOrderTags := "form-submission, netlify"

  /** The inbound event, reduced to what the handler reads. */
  datatype Request = Request(httpMethod: string, origin: Option<string>, body: RawBody)

  /** The allowed-origins setting, `""` when it is unset. */
  function OriginsSetting(env: Option<string>): string {
    if env.Some? then env.value else ""
  }

  /** The configured allow-list: each comma-separated entry, trimmed, behind `https://`.
      Every entry is non-empty, so the handler's `filter(Boolean)` removes none of them. */
  function AllowedOrigins(env: Option<string>): (origins: seq<string>)
    ensures |origins| == Count(OriginsSetting(env), ',') + 1
    ensures forall i :: 0 <= i < |origins| ==>
      |origins[i]| >= |OriginScheme| && origins[i][..|OriginScheme|] == OriginScheme
  {
    WithScheme(Split(OriginsSetting(env), ','))
  }

  /** `https://` in front of each trimmed entry. */
  function WithScheme(entries: seq<string>): (origins: seq<string>)
    ensures |origins| == |entries|
    ensures forall i :: 0 <= i < |origins| ==> origins[i] == OriginScheme + Trim(entries[i])
  {
    seq(|entries|, i requires 0 <= i < |entries| => OriginScheme + Trim(entries[i]))
  }

  /** The entry `d` of the setting that admits `origin`. */
  ghost predicate AdmittedBy(origin: string, d: string) {
    origin == OriginScheme + Trim(d)
  }

  /** The response headers: the two fixed CORS headers, plus the allow-origin
      header echoing `origin` exactly when some configured entry admits it. */
  function CorsHeaders(origin: Option<string>, env: Option<string>): (h: map<string, string>)
    ensures h.Keys <= {AllowMethodsHeader, AllowHeadersHeader, AllowOriginHeader}
    ensures AllowMethodsHeader in h && h[AllowMethodsHeader] == "POST, OPTIONS"
    ensures AllowHeadersHeader in h && h[AllowHeadersHeader] == "Content-Type"
    ensures AllowOriginHeader in h <==>
      origin.Some? && exists d :: d in Split(OriginsSetting(env), ',') && AdmittedBy(origin.value, d)
    ensures AllowOriginHeader in h ==> h[AllowOriginHeader] == origin.value
  {
    HeaderNamesDistinct();
    var base := map[AllowMethodsHeader := "POST, OPTIONS", AllowHeadersHeader := "Content-Type"];
    if OriginAllowed(origin, env) then base[AllowOriginHeader := origin.value] else base
  }

  /** The check `origin && allowedOrigins.includes(origin)`: the origin is given,
      and some configured entry admits it (which also makes it non-empty). */
  function OriginAllowed(origin: Option<string>, env: Option<string>): (b: bool)
    ensures b <==> origin.Some? && exists d :: d in Split(OriginsSetting(env), ',') && AdmittedBy(origin.value, d)
  {
    AllowedOriginsAdmit(if origin.Some? then origin.value else "", Split(OriginsSetting(env), ','));
    origin.Some? && origin.value != "" && origin.value in AllowedOrigins(env)
  }

  lemma HeaderNamesDistinct()
    ensures AllowMethodsHeader != AllowHeadersHeader
    ensures AllowMethodsHeader != AllowOriginHeader && AllowHeadersHeader != AllowOriginHeader
  {
    // Solver help: the first two names differ at index 21 ('M' against 'H'),
    // and the allow-origin name differs from both in length.
    assert AllowMethodsHeader[21] != AllowHeadersHeader[21];
    assert |AllowOriginHeader| != |AllowMethodsHeader|;
  }

  /** An origin is on the configured allow-list exactly when some entry admits it,
      and no such origin is the empty string. */
  lemma AllowedOriginsAdmit(origin: string, entries: seq<string>)
    ensures origin in WithScheme(entries) <==> exists d :: d in entries && AdmittedBy(origin, d)
    ensures origin in WithScheme(entries) ==> origin != ""
  {
    var origins := WithScheme(entries);
    if origin in origins {
      var i :| 0 <= i < |origins| && origins[i] == origin;
      assert entries[i] in entries && AdmittedBy(origin, entries[i]);
      assert |origin| >= |OriginScheme| > 0;
    }
    if d :| d in entries && AdmittedBy(origin, d) {
      var i :| 0 <= i < |entries| && entries[i] == d;
      assert origins[i] == origin;
    }
  }

  /** The allow-list stated through the setting itself: an origin is listed
      exactly when some comma-separated entry of the setting admits it. */
  lemma AllowedOriginsFromSetting(origin: string, env: Option<string>)
    ensures origin in AllowedOrigins(env)
        <==> exists d :: d in Split(OriginsSetting(env), ',') && AdmittedBy(origin, d)
  {
    AllowedOriginsAdmit(origin, Split(OriginsSetting(env), ','));
  }

  /** A kept value: text goes through the sanitizer, anything else is kept as is. */
  function Clean(v: Value, sanitize: string -> string): Value {
    if v.Str? then Str(sanitize(v.s)) else v
  }

  /** The loop over the allow-list: a listed field is kept, cleaned, exactly when
      the body holds a truthy value for it. */
  function FilterFields(body: map<string, Value>, names: seq<string>, sanitize: string -> string)
    : (fields: map<string, Value>)
    ensures forall k :: k in fields <==> k in names && k in body && Truthy(body[k])
    ensures forall k :: k in fields ==> fields[k] == Clean(body[k], sanitize)
    decreases |names|
  {
    if |names| == 0 then
      map[]
    else
      var rest := FilterFields(body, names[1..], sanitize);
      var k := names[0];
      if k in body && Truthy(body[k]) then rest[k := Clean(body[k], sanitize)] else rest
  }

  /** The submission the handler works with once the body has parsed to a non-null value. */
  function Submission(body: Value, sanitize: string -> string): (fields: map<string, Value>)
    ensures fields.Keys <= set k | k in AllowedFields
  {
    FilterFields(Members(body), AllowedFields, sanitize)
  }

  /** The record-store payload: the submission restricted to the record-store allow-list. */
  function RecordFor(fields: map<string, Value>): (record: map<string, Value>)
    ensures forall k :: k in record <==> k in fields && k in RecordStoreFields
    ensures forall k :: k in record ==> record[k] == fields[k]
    ensures "variant_id" !in record && "product_title" !in record
  {
    map k | k in fields && k in RecordStoreFields :: fields[k]
  }

  /** The variant list the line items come from: a non-empty `variant_id` text. */
  function VariantList(fields: map<string, Value>): Option<string> {
    if "variant_id" in fields && fields["variant_id"].Str? && fields["variant_id"].s != "" then
      Some(fields["variant_id"].s)
    else
      None
  }

  /** One quantity-1 line item per comma-separated token of the variant list, in order. */
  function LineItems(fields: map<string, Value>): (items: seq<LineItem>)
    ensures VariantList(fields).None? ==> items == []
    ensures VariantList(fields).Some? ==>
      var list := VariantList(fields).value;
      && |items| == Count(list, ',') + 1
      && forall i :: 0 <= i < |items| ==>
           items[i] == LineItem(Trim(Split(list, ',')[i]), 1)
  {
    match VariantList(fields)
    case None => []
    case Some(list) =>
      var tokens := Split(list, ',');
      seq(|tokens|, i requires 0 <= i < |tokens| => LineItem(Trim(tokens[i]), 1))
  }

  /** The draft order sent to the order backend. */
  function DraftOrderFor(fields: map<string, Value>): (order: DraftOrder)
    ensures order.shippingAddress == order.billingAddress
    ensures order.shippingAddress == Address(Get(fields, "First"), Get(fields, "Last"),
      Get(fields, "Delivery Address"), Get(fields, "Phone"), Get(fields, "Delivery Zip Code"))
    ensures order.customer == Customer(Get(fields, "First"), Get(fields, "Email"))
    ensures order.email == Get(fields, "Email")
    ensures order.lineItems == LineItems(fields)
    ensures order.tags == "form-submission, netlify"
  {
    DraftOrder(
      email := Get(fields, "Email"),
      lineItems := LineItems(fields),
      shippingAddress := Address(
        firstName := Get(fields, "First"),
        lastName := Get(fields, "Last"),
        address1 := Get(fields, "Delivery Address"),
        phone := Get(fields, "Phone"),
        zip := Get(fields, "Delivery Zip Code")),
      billingAddress := Address(
        firstName := Get(fields, "First"),
        lastName := Get(fields, "Last"),
        address1 := Get(fields, "Delivery Address"),
        phone := Get(fields, "Phone"),
        zip := Get(fields, "Delivery Zip Code")),
      customer := Customer(firstName := Get(fields, "First"), email := Get(fields, "Email")),
      tags := DraftOrderTags)
  }

  /** `JSON.parse(event.body || '{}')`: a missing body reads as the empty object;
      `None` is a parse failure. */
  function ParseBody(body: RawBody): Option<Value> {
    match body
    case Absent => Some(Obj(map[]))
    case Malformed => None
    case Parsed(v) => Some(v)
  }

  /** The response every exception inside the handler's `try` maps to. */
  function ServerError(headers: map<string, string>): Response {
    Response(500, headers, Json(ErrorObject("Something went wrong")))
  }

  /** The intake handler. `store` is the record store's reply; `backend` is the
      order backend's, which the handler never lets reach the response. */
  function Handle(req: Request, env: Option<string>, sanitize: string -> string,
                  store: Reply, backend: Reply): (result: (Response, seq<OutboundCall>))
    ensures result.0.headers == CorsHeaders(req.origin, env)
    ensures req.httpMethod == "OPTIONS" ==>
      result.0 == Response(204, CorsHeaders(req.origin, env), NoBody) && result.1 == []
    ensures req.httpMethod != "OPTIONS" && req.httpMethod != "POST" ==>
      result.0 == Response(405, CorsHeaders(req.origin, env), Text("Method Not Allowed")) && result.1 == []
    ensures result.0.statusCode in {200, 204, 400, 405, 500}
    ensures result.0.statusCode == 200 <==> |result.1| == 2
    ensures forall i :: 0 <= i < |result.1| ==>
      (result.1[i].CreateRecord? <==> i == 0) && (result.1[i].CreateDraftOrder? <==> i == 1)
  {
    var headers := CorsHeaders(req.origin, env);
    if req.httpMethod == "OPTIONS" then
      (Response(204, headers, NoBody), [])
    else if req.httpMethod != "POST" then
      (Response(405, headers, Text("Method Not Allowed")), [])
    else
      match ParseBody(req.body)
      case None => (ServerError(headers), [])
      case Some(v) =>
        if v.Null? then
          (ServerError(headers), [])
        else
          Submit(headers, Submission(v, sanitize), store)
  }

  /** What happens once the submission is known: a 400 when it is empty, else the
      record-store write followed, on success only, by the draft-order creation. */
  function Submit(headers: map<string, string>, fields: map<string, Value>, store: Reply)
    : (result: (Response, seq<OutboundCall>))
    ensures result.0.headers == headers
    ensures |fields| == 0 <==> result.1 == []
    ensures result.1 != [] ==> result.1[0] == CreateRecord(RecordFor(fields))
    ensures result.0.statusCode == 200 <==> |result.1| == 2
    ensures |result.1| == 2 ==> result.1[1] == CreateDraftOrder(DraftOrderFor(fields))
    ensures result.0.statusCode in {200, 400, 500}
    ensures forall i :: 0 <= i < |result.1| ==>
      (result.1[i].CreateRecord? <==> i == 0) && (result.1[i].CreateDraftOrder? <==> i == 1)
  {
    if |fields| == 0 then
      (Response(400, headers, Json(ErrorObject("No valid fields provided."))), [])
    else
      var storeCall := CreateRecord(RecordFor(fields));
      match store
      case Reply(true, Some(data)) =>
        (Response(200, headers, Json(data)), [storeCall, CreateDraftOrder(DraftOrderFor(fields))])
      case _ =>
        (ServerError(headers), [storeCall])
  }
}

=== FILE: order_form_properties.dfy ===
/**
 * Properties of the intake handler that relate several calls or hold for all
 * inputs: the allow-lists, the 400 decision, call ordering and error mapping,
 * and the fact that nothing outside the allow-list influences what is sent.
 */
module OrderFormProperties {
  import opened Wrappers
  import opened JsValues
  import opened Text
  import opened Http
  import opened OrderForm
  import opened TextExamples

  /** The record-store allow-list is a strict subset of the intake allow-list; the
      two fields it drops are the variant list and the product title. */
  lemma AllowListsNested()
    ensures forall k :: k in RecordStoreFields ==> k in AllowedFields
    ensures forall k :: k in AllowedFields && k !in RecordStoreFields <==> k == "variant_id" || k == "product_title"
    ensures "variant_id" in AllowedFields && "product_title" in AllowedFields
  {
    AllowListsSplit();
    RecordFieldInitials();
    forall k | k in AllowedFields && k !in RecordStoreFields
      ensures k == "variant_id" || k == "product_title"
    {
      assert k in RecordStoreFields + ["variant_id", "product_title"];
    }
    forall k | k == "variant_id" || k == "product_title"
      ensures k in AllowedFields && k !in RecordStoreFields
    {
      assert k in RecordStoreFields + ["variant_id", "product_title"];
      assert k[0] == 'v' || k[0] == 'p';
    }
  }

  lemma AllowListsSplit()
    ensures AllowedFields == RecordStoreFields + ["variant_id", "product_title"]
  {
  }

  // Solver help: no record-store field begins with 'v' or 'p', which separates
  // every one of them from `variant_id` and `product_title` without comparing whole strings.
  lemma RecordFieldInitials()
    ensures forall k :: k in RecordStoreFields ==> |k| > 0 && k[0] != 'v' && k[0] != 'p'
  {
    forall k | k in RecordStoreFields ensures |k| > 0 && k[0] != 'v' && k[0] != 'p' {
      var i :| 0 <= i < |RecordStoreFields| && RecordStoreFields[i] == k;
    }
  }

  /** A pre-flight request is answered the same whatever its body and whatever the
      upstream services would say. */
  lemma PreflightIgnoresBody(origin: Option<string>, env: Option<string>, sanitize: string -> string,
                             b1: RawBody, store1: Reply, backend1: Reply,
                             b2: RawBody, store2: Reply, backend2: Reply)
    ensures Handle(Request("OPTIONS", origin, b1), env, sanitize, store1, backend1)
         == Handle(Request("OPTIONS", origin, b2), env, sanitize, store2, backend2)
    ensures Handle(Request("OPTIONS", origin, b1), env, sanitize, store1, backend1).0.statusCode == 204
  {
  }

  /** No allow-listed field of `body` holds a truthy value. */
  ghost predicate NothingAllowListed(body: Value) {
    forall k :: k in AllowedFields && k in Members(body) ==> !Truthy(Members(body)[k])
  }

  /** A POST whose body parses to a non-null value is answered 400, with no call
      made, exactly when no allow-listed field is truthy; the sanitizer's output
      plays no part in that decision. */
  lemma RejectedIffNothingAllowListed(req: Request, env: Option<string>, sanitize: string -> string,
                                      store: Reply, backend: Reply)
    requires req.httpMethod == "POST"
    requires ParseBody(req.body).Some? && !ParseBody(req.body).value.Null?
    ensures var result := Handle(req, env, sanitize, store, backend);
      result == (Response(400, CorsHeaders(req.origin, env), Json(ErrorObject("No valid fields provided."))), [])
      <==> NothingAllowListed(ParseBody(req.body).value)
    ensures var result := Handle(req, env, sanitize, store, backend);
      result.0.statusCode == 400 <==> NothingAllowListed(ParseBody(req.body).value)
  {
    var v := ParseBody(req.body).value;
    var fields := Submission(v, sanitize);
    PostUnfolds(req, v, env, sanitize, store, backend);
    if !NothingAllowListed(v) {
      var k :| k in AllowedFields && k in Members(v) && Truthy(Members(v)[k]);
      assert k in fields;
    } else {
      assert fields == map[];
    }
  }

  /** A POST without a body reads as `{}` and is rejected with 400 and no call. */
  lemma MissingBodyRejected(origin: Option<string>, env: Option<string>, sanitize: string -> string,
                            store: Reply, backend: Reply)
    ensures Handle(Request("POST", origin, Absent), env, sanitize, store, backend)
         == (Response(400, CorsHeaders(origin, env), Json(ErrorObject("No valid fields provided."))), [])
  {
    assert Submission(Obj(map[]), sanitize) == map[];
  }

  /** A POST whose body is not JSON, or is JSON `null`, fails inside the handler's
      `try` and is answered 500 with no call made. */
  lemma UnreadableBodyFails(req: Request, env: Option<string>, sanitize: string -> string,
                            store: Reply, backend: Reply)
    requires req.httpMethod == "POST"
    requires req.body == Malformed || req.body == Parsed(Null)
    ensures Handle(req, env, sanitize, store, backend) == (ServerError(CorsHeaders(req.origin, env)), [])
  {
  }

  /** A POST whose body parses to a non-null value goes on to `Submit`. */
  lemma PostUnfolds(req: Request, v: Value, env: Option<string>, sanitize: string -> string,
                    store: Reply, backend: Reply)
    requires req.httpMethod == "POST"
    requires ParseBody(req.body) == Some(v) && !v.Null?
    ensures Handle(req, env, sanitize, store, backend)
         == Submit(CorsHeaders(req.origin, env), Submission(v, sanitize), store)
  {
    assert req.httpMethod != "OPTIONS";
  }

  /** A body with some truthy allow-listed field gives a non-empty submission. */
  lemma SubmissionNonEmpty(v: Value, sanitize: string -> string)
    requires !NothingAllowListed(v)
    ensures |Submission(v, sanitize)| > 0
  {
    var k :| k in AllowedFields && k in Members(v) && Truthy(Members(v)[k]);
    assert k in Submission(v, sanitize);
  }

  /** When the record store does not answer with an ok, JSON reply, the handler
      answers 500 after that one call: the order backend is never called. */
  lemma StoreFailureStopsBeforeBackend(req: Request, v: Value, env: Option<string>,
                                       sanitize: string -> string, store: Reply, backend: Reply)
    requires req.httpMethod == "POST"
    requires ParseBody(req.body) == Some(v) && !v.Null? && !NothingAllowListed(v)
    requires !(store.Reply? && store.ok && store.payload.Some?)
    ensures Handle(req, env, sanitize, store, backend)
         == (ServerError(CorsHeaders(req.origin, env)), [CreateRecord(RecordFor(Submission(v, sanitize)))])
  {
    SubmissionNonEmpty(v, sanitize);
    PostUnfolds(req, v, env, sanitize, store, backend);
  }

  /** When the record store accepts the record, the order backend is called
      exactly once, after it, and the response is 200 with the record store's
      reply, whatever the order backend answers or whether it answers at all. */
  lemma StoreSuccessThenBackend(req: Request, v: Value, env: Option<string>,
                                sanitize: string -> string, data: Value, backend: Reply)
    requires req.httpMethod == "POST"
    requires ParseBody(req.body) == Some(v) && !v.Null? && !NothingAllowListed(v)
    ensures var fields := Submission(v, sanitize);
      Handle(req, env, sanitize, Reply(true, Some(data)), backend)
      == (Response(200, CorsHeaders(req.origin, env), Json(data)),
          [CreateRecord(RecordFor(fields)), CreateDraftOrder(DraftOrderFor(fields))])
  {
    SubmissionNonEmpty(v, sanitize);
    PostUnfolds(req, v, env, sanitize, Reply(true, Some(data)), backend);
  }

  /** The draft order is sent even when it has no line items: a submission whose
      variant list is missing, empty after sanitizing, or not text still reaches
      the order backend once the record store accepts it. */
  lemma BackendCalledWithoutLineItems(req: Request, v: Value, env: Option<string>,
                                      sanitize: string -> string, data: Value, backend: Reply)
    requires req.httpMethod == "POST"
    requires ParseBody(req.body) == Some(v) && !v.Null? && !NothingAllowListed(v)
    requires VariantList(Submission(v, sanitize)).None?
    ensures var calls := Handle(req, env, sanitize, Reply(true, Some(data)), backend).1;
      |calls| == 2 && calls[1].CreateDraftOrder? && calls[1].order.lineItems == []
  {
    StoreSuccessThenBackend(req, v, env, sanitize, data, backend);
  }

  /** The order backend's reply never influences the outcome. */
  lemma BackendReplyIgnored(req: Request, env: Option<string>, sanitize: string -> string,
                            store: Reply, backend1: Reply, backend2: Reply)
    ensures Handle(req, env, sanitize, store, backend1) == Handle(req, env, sanitize, store, backend2)
  {
  }

  /** The record store only ever receives record-store allow-listed fields, never
      the variant list or the product title. */
  lemma RecordStoreSeesOnlyItsFields(req: Request, env: Option<string>, sanitize: string -> string,
                                     store: Reply, backend: Reply)
    ensures forall c :: c in Handle(req, env, sanitize, store, backend).1 && c.CreateRecord? ==>
      && (forall k :: k in c.fields ==> k in RecordStoreFields)
      && "variant_id" !in c.fields && "product_title" !in c.fields
  {
  }

  /** Two bodies that agree on every allow-listed field. */
  ghost predicate AgreeOnAllowList(a: map<string, Value>, b: map<string, Value>) {
    forall k :: k in AllowedFields ==> (k in a <==> k in b) && (k in a ==> a[k] == b[k])
  }

  /** Nothing outside the allow-list leaks: a field the allow-list does not name
      changes neither the response nor any outbound call. */
  lemma UnlistedFieldsIrrelevant(httpMethod: string, origin: Option<string>, env: Option<string>,
                                 sanitize: string -> string, store: Reply, backend: Reply,
                                 a: map<string, Value>, b: map<string, Value>)
    requires AgreeOnAllowList(a, b)
    ensures Handle(Request(httpMethod, origin, Parsed(Obj(a))), env, sanitize, store, backend)
         == Handle(Request(httpMethod, origin, Parsed(Obj(b))), env, sanitize, store, backend)
  {
    SubmissionAgrees(a, b, sanitize);
    SameSubmissionSameOutcome(httpMethod, origin, env, sanitize, store, backend, a, b);
  }

  lemma SameSubmissionSameOutcome(httpMethod: string, origin: Option<string>, env: Option<string>,
                                  sanitize: string -> string, store: Reply, backend: Reply,
                                  a: map<string, Value>, b: map<string, Value>)
    requires Submission(Obj(a), sanitize) == Submission(Obj(b), sanitize)
    ensures Handle(Request(httpMethod, origin, Parsed(Obj(a))), env, sanitize, store, backend)
         == Handle(Request(httpMethod, origin, Parsed(Obj(b))), env, sanitize, store, backend)
  {
    var ra := Request(httpMethod, origin, Parsed(Obj(a)));
    var rb := Request(httpMethod, origin, Parsed(Obj(b)));
    if httpMethod == "POST" {
      PostUnfolds(ra, Obj(a), env, sanitize, store, backend);
      PostUnfolds(rb, Obj(b), env, sanitize, store, backend);
    }
  }

  lemma SubmissionAgrees(a: map<string, Value>, b: map<string, Value>, sanitize: string -> string)
    requires AgreeOnAllowList(a, b)
    ensures Submission(Obj(a), sanitize) == Submission(Obj(b), sanitize)
  {
    var fa := Submission(Obj(a), sanitize);
    var fb := Submission(Obj(b), sanitize);
    assert fa.Keys == fb.Keys;
  }

  /** As written, an unset origin setting still admits the bare origin `https://`:
      splitting the empty setting yields one empty entry. */
  lemma EmptySettingAdmitsBareScheme()
    ensures AllowOriginHeader in CorsHeaders(Some("https://"), None)
  {
    assert Split("", ',') == [""];
    assert AdmittedBy("https://", "");
  }

  /** The line items follow the variant list token by token: there is a way to cut
      the list at its commas whose pieces, trimmed, are the items' variants in order. */
  lemma LineItemsFollowTokens(fields: map<string, Value>)
    requires VariantList(fields).Some?
    ensures var list := VariantList(fields).value;
      var items := LineItems(fields);
      exists tokens: seq<string> ::
        && |tokens| == |items| > 0
        && Join(tokens, ',') == list
        && (forall i :: 0 <= i < |tokens| ==> ',' !in tokens[i])
        && (forall i :: 0 <= i < |items| ==> items[i].variantId == Trim(tokens[i]) && items[i].quantity == 1)
  {
    var list := VariantList(fields).value;
    JoinSplit(list, ',');
    var tokens := Split(list, ',');
    assert Join(tokens, ',') == list;
  }

  /** The variant list "101, 202,303" yields three quantity-1 items, in order. */
  lemma ExampleVariantList()
    ensures LineItems(map["variant_id" := Str("101, 202,303")])
         == [LineItem("101", 1), LineItem("202", 1), LineItem("303", 1)]
  {
    var fields := map["variant_id" := Str("101, 202,303")];
    assert VariantList(fields) == Some("101, 202,303");
    ExampleTokens();
    ThreeTokenItems(fields, "101, 202,303", "101", " 202", "303");
    ExampleTrims();
  }

  /** A variant list of three tokens gives three items. */
  lemma ThreeTokenItems(fields: map<string, Value>, list: string, t0: string, t1: string, t2: string)
    requires VariantList(fields) == Some(list)
    requires Split(list, ',') == [t0, t1, t2]
    ensures LineItems(fields) == [LineItem(Trim(t0), 1), LineItem(Trim(t1), 1), LineItem(Trim(t2), 1)]
  {
    var items := LineItems(fields);
    assert |items| == 3;
    assert items[0] == LineItem(Trim(t0), 1);
    assert items[1] == LineItem(Trim(t1), 1);
    assert items[2] == LineItem(Trim(t2), 1);
    ThreeItems(items, LineItem(Trim(t0), 1), LineItem(Trim(t1), 1), LineItem(Trim(t2), 1));
  }

  lemma ThreeItems(items: seq<LineItem>, x: LineItem, y: LineItem, z: LineItem)
    requires |items| == 3 && items[0] == x && items[1] == y && items[2] == z
    ensures items == [x, y, z]
  {
  }
}

=== FILE: status_callback.dfy ===
/**
 * The status-callback handler: from a callback's `status` and `paid` members it
 * decides whether to update the draft order, complete it, do both (update
 * first) or do nothing. Upstream replies are awaited but never inspected. The
 * answer is a 500 only for an unreadable body, a `draftId` that cannot be put
 * into a request URL, or a rejected request.
 */
module StatusCallback {
  import opened Wrappers
  import opened JsValues
  import opened Http

  const UpdateNote := "Updated automatically from Airtable"

  /** The callback payload, once `JSON.parse` has produced something whose members
      can be read; `None` when parsing fails or yields `null`. A missing body
      (`undefined`, `null` or `""`) cannot be parsed into such a value either. */
  function Payload(body: RawBody): (p: Option<Value>)
    ensures p.Some? <==> body.Parsed? && !body.value.Null?
    ensures p.Some? ==> p.value == body.value
  {
    match body
    case Parsed(v) => if v.Null? then None else Some(v)
    case _ => None
  }

  /** The update is requested exactly when `status` is the string "updated". */
  predicate WantsUpdate(v: Value) {
    Member(v, "status") == Some(Str("updated"))
  }

  /** Completion is requested exactly when `paid` is the boolean `true`. */
  predicate WantsCompletion(v: Value) {
    Member(v, "paid") == Some(Bool(true))
  }

  /** The callback's `draftId` is spliced into both request URLs, and here that
      conversion to text throws. A missing `draftId` becomes "undefined" and does not throw. */
  predicate IdUnconvertible(v: Value) {
    var id := Member(v, "draftId");
    id.Some? && ToTextThrows(id.value)
  }

  /** The update request: the callback's `draftId` and `lineItems`, as given, and the fixed note. */
  function UpdateCall(v: Value): (c: OutboundCall)
    ensures c.UpdateDraftOrder? && c.note == "Updated automatically from Airtable"
    ensures c.draftId == Member(v, "draftId") && c.lineItems == Member(v, "lineItems")
  {
    UpdateDraftOrder(Member(v, "draftId"), Member(v, "lineItems"), UpdateNote)
  }

  /** The completion request for the callback's `draftId`. */
  function CompleteCall(v: Value): (c: OutboundCall)
    ensures c.CompleteDraftOrder? && c.draftId == Member(v, "draftId")
  {
    CompleteDraftOrder(Member(v, "draftId"))
  }

  function Acknowledge(): Response {
    Response(200, map[], Json(Obj(map["success" := Bool(true)])))
  }

  function Failed(fault: Fault): Response {
    Response(500, map[], ErrorMessage(fault))
  }

  /** The callback handler. `update` and `complete` are what the order backend's
      two endpoints do with a request, should one be sent. */
  function Handle(body: RawBody, update: Reply, complete: Reply): (result: (Response, seq<OutboundCall>))
    ensures result.0.statusCode == 200 || result.0.statusCode == 500
    ensures result.0.headers == map[]
    ensures result.0.statusCode == 200 ==> result.0 == Acknowledge()
    ensures Payload(body).None? ==> result == (Failed(InvalidBody), [])
    ensures |result.1| <= 2
    ensures |result.1| == 2 ==> result.1[0].UpdateDraftOrder? && result.1[1].CompleteDraftOrder?
    ensures result.0.statusCode == 500 <==>
              Payload(body).None?
              || (WantsUpdate(Payload(body).value) && update.NetworkError?)
              || (WantsCompletion(Payload(body).value) && complete.NetworkError?)
              || (IdUnconvertible(Payload(body).value)
                  && (WantsUpdate(Payload(body).value) || WantsCompletion(Payload(body).value)))
    ensures Payload(body).Some? && IdUnconvertible(Payload(body).value)
            && (WantsUpdate(Payload(body).value) || WantsCompletion(Payload(body).value))
            ==> result == (Failed(Unconvertible), [])
  {
    match Payload(body)
    case None => (Failed(InvalidBody), [])
    case Some(v) =>
      if WantsUpdate(v) && IdUnconvertible(v) then
        (Failed(Unconvertible), [])
      else
      var updates := if WantsUpdate(v) then [UpdateCall(v)] else [];
      if WantsUpdate(v) && update.NetworkError? then
        (Failed(NetworkFailure), updates)
      else if WantsCompletion(v) then
        if IdUnconvertible(v) then
          (Failed(Unconvertible), updates)
        else
        var calls := updates + [CompleteCall(v)];
        if complete.NetworkError? then (Failed(NetworkFailure), calls) else (Acknowledge(), calls)
      else
        (Acknowledge(), updates)
  }
}

=== FILE: status_callback_properties.dfy ===
/**
 * Properties of the status-callback handler: when each request is sent, in
 * which order, with what content, and how little the upstream replies matter.
 */
module StatusCallbackProperties {
  import opened Wrappers
  import opened JsValues
  import opened Http
  import opened StatusCallback

  ghost predicate HasUpdate(calls: seq<OutboundCall>) {
    exists i :: 0 <= i < |calls| && calls[i].UpdateDraftOrder?
  }

  ghost predicate HasCompletion(calls: seq<OutboundCall>) {
    exists i :: 0 <= i < |calls| && calls[i].CompleteDraftOrder?
  }

  /** An update is sent exactly when the payload's `status` is the string "updated"
      and its `draftId` can be put into the request URL. */
  lemma UpdateIffStatusUpdated(body: RawBody, update: Reply, complete: Reply)
    ensures HasUpdate(Handle(body, update, complete).1)
        <==> && Payload(body).Some?
             && Member(Payload(body).value, "status") == Some(Str("updated"))
             && !IdUnconvertible(Payload(body).value)
  {
    var calls := Handle(body, update, complete).1;
    if Payload(body).Some? && WantsUpdate(Payload(body).value) && !IdUnconvertible(Payload(body).value) {
      assert calls[0].UpdateDraftOrder?;
    }
  }

  /** A completion is sent exactly when `paid` is the boolean `true`, the `draftId`
      can be put into the request URL, and no update request before it was rejected. */
  lemma CompletionIffPaidTrue(body: RawBody, update: Reply, complete: Reply)
    ensures HasCompletion(Handle(body, update, complete).1)
        <==> && Payload(body).Some?
             && Member(Payload(body).value, "paid") == Some(Bool(true))
             && !IdUnconvertible(Payload(body).value)
             && !(WantsUpdate(Payload(body).value) && update.NetworkError?)
  {
    var calls := Handle(body, update, complete).1;
    if Payload(body).Some? {
      var v := Payload(body).value;
      if WantsCompletion(v) && !IdUnconvertible(v) && !(WantsUpdate(v) && update.NetworkError?) {
        assert calls[|calls| - 1].CompleteDraftOrder?;
      }
    }
  }

  /** A truthy `paid` that is not the boolean `true` — "true", 1, an object — completes nothing. */
  lemma TruthyPaidIsNotEnough(body: RawBody, update: Reply, complete: Reply)
    requires Payload(body).Some?
    requires Member(Payload(body).value, "paid").Some?
    requires Truthy(Member(Payload(body).value, "paid").value)
    requires Member(Payload(body).value, "paid") != Some(Bool(true))
    ensures !HasCompletion(Handle(body, update, complete).1)
  {
    CompletionIffPaidTrue(body, update, complete);
  }

  /** Each request is sent at most once, carries the payload's `draftId` (and, for
      the update, its `lineItems` and the fixed note), and the update comes first. */
  lemma CallsInOrderFromPayload(body: RawBody, update: Reply, complete: Reply)
    requires Payload(body).Some?
    ensures var v := Payload(body).value;
      var calls := Handle(body, update, complete).1;
      && calls in {[], [UpdateCall(v)], [CompleteCall(v)], [UpdateCall(v), CompleteCall(v)]}
      && (HasUpdate(calls) && HasCompletion(calls) ==> calls == [UpdateCall(v), CompleteCall(v)])
  {
    var v := Payload(body).value;
    var calls := Handle(body, update, complete).1;
    if IdUnconvertible(v) && (WantsUpdate(v) || WantsCompletion(v)) {
      assert calls == [];
    } else if WantsUpdate(v) && update.NetworkError? {
      assert calls == [UpdateCall(v)];
      assert !HasCompletion(calls);
    } else if WantsCompletion(v) {
      if WantsUpdate(v) {
        assert calls == [UpdateCall(v)] + [CompleteCall(v)] == [UpdateCall(v), CompleteCall(v)];
      } else {
        assert calls == [CompleteCall(v)];
        assert !HasUpdate(calls);
      }
    } else if WantsUpdate(v) {
      assert calls == [UpdateCall(v)];
      assert !HasCompletion(calls);
    }
  }

  /** A rejected update request ends the handler: the answer is 500 and no
      completion is attempted, whatever `paid` says. If the `draftId` cannot be
      put into the URL, the update is never sent and the answer is still 500. */
  lemma RejectedUpdateStops(body: RawBody, complete: Reply)
    requires Payload(body).Some? && WantsUpdate(Payload(body).value)
    ensures Handle(body, NetworkError, complete)
         == if IdUnconvertible(Payload(body).value) then (Failed(Unconvertible), [])
            else (Failed(NetworkFailure), [UpdateCall(Payload(body).value)])
  {
  }

  /** A rejected completion request, once it is sent, also ends in 500; the
      update, if one was wanted, was sent before it. A `draftId` that cannot be
      put into the URL ends in 500 before any request. */
  lemma RejectedCompletionFails(body: RawBody, update: Reply)
    requires Payload(body).Some? && WantsCompletion(Payload(body).value)
    requires !(WantsUpdate(Payload(body).value) && update.NetworkError?)
    ensures var v := Payload(body).value;
      Handle(body, update, NetworkError)
      == if IdUnconvertible(v) then (Failed(Unconvertible), [])
         else (Failed(NetworkFailure),
               (if WantsUpdate(v) then [UpdateCall(v)] else []) + [CompleteCall(v)])
  {
  }

  /** Replies are never inspected. As long as no request is rejected, the outcome
      does not depend on the order backend's status or body. The answer is 200
      `{success: true}` unless the `draftId` of a wanted request cannot be put into its URL. */
  lemma RepliesNeverInspected(body: RawBody, u1: Reply, c1: Reply, u2: Reply, c2: Reply)
    requires Payload(body).Some?
    requires u1.Reply? && c1.Reply? && u2.Reply? && c2.Reply?
    ensures var v := Payload(body).value;
      Handle(body, u1, c1).0 == Acknowledge()
      <==> !(IdUnconvertible(v) && (WantsUpdate(v) || WantsCompletion(v)))
    ensures Handle(body, u1, c1) == Handle(body, u2, c2)
  {
  }

  /** A payload without `draftId` is not rejected: the requests go out with an
      undefined id and the answer is still 200. */
  lemma MissingDraftIdAccepted(body: RawBody, update: Reply, complete: Reply)
    requires Payload(body).Some? && Member(Payload(body).value, "draftId").None?
    requires update.Reply? && complete.Reply?
    ensures var result := Handle(body, update, complete);
      && result.0.statusCode == 200
      && forall c :: c in result.1 ==> (c.UpdateDraftOrder? || c.CompleteDraftOrder?) && c.draftId.None?
  {
  }

  /** A `draftId` object with its own `toString` member: the update is wanted but
      never sent, and the answer is 500. */
  lemma ToStringMemberFails(update: Reply, complete: Reply)
    ensures var id := Obj(map["toString" := Num(1.0)]);
      var v := Obj(map["status" := Str("updated"), "draftId" := id]);
      Handle(Parsed(v), update, complete) == (Failed(Unconvertible), [])
  {
    var id := Obj(map["toString" := Num(1.0)]);
    var v := Obj(map["status" := Str("updated"), "draftId" := id]);
    assert Member(v, "draftId") == Some(id);
    assert Member(v, "status") == Some(Str("updated"));
  }

  /** Two payloads that agree on the four members the handler reads. */
  ghost predicate AgreeOnReadMembers(a: Value, b: Value) {
    forall k :: k in ["status", "draftId", "lineItems", "paid"] ==> Member(a, k) == Member(b, k)
  }

  /** Only `status`, `draftId`, `lineItems` and `paid` matter; `recordId` and every
      other member are read or ignored without effect. */
  lemma OnlyReadMembersMatter(a: Value, b: Value, update: Reply, complete: Reply)
    requires !a.Null? && !b.Null?
    requires AgreeOnReadMembers(a, b)
    ensures Handle(Parsed(a), update, complete) == Handle(Parsed(b), update, complete)
  {
    assert Member(a, "status") == Member(b, "status");
    assert Member(a, "draftId") == Member(b, "draftId");
    assert Member(a, "lineItems") == Member(b, "lineItems");
    assert Member(a, "paid") == Member(b, "paid");
  }
}

=== FILE: text.dfy ===
/**
 * The string operations the handlers use: `String.prototype.trim` and
 * `String.prototype.split` with a one-character separator, with `join` as the
 * inverse that pins down what `split` computes.
 */
module Text {

  /** The characters `trim` removes: the ECMAScript WhiteSpace and
      LineTerminator code points (tab to carriage return, space, no-break space,
      ogham space mark, the en quad to hair space block, line and paragraph
      separators, narrow no-break space, medium mathematical space, ideographic
      space and the byte order mark). */
  predicate IsWhitespace(c: char) {
    || '\U{0009}' <= c <= '\U{000D}'
    || c == '\U{0020}' || c == '\U{00A0}' || c == '\U{1680}'
    || '\U{2000}' <= c <= '\U{200A}'
    || c == '\U{2028}' || c == '\U{2029}' || c == '\U{202F}' || c == '\U{205F}'
    || c == '\U{3000}' || c == '\U{FEFF}'
  }

  /** Every character of `t` is whitespace. */
  ghost predicate Blank(t: string) {
    forall i :: 0 <= i < |t| ==> IsWhitespace(t[i])
  }

  /** `s` with its leading whitespace removed. */
  function TrimStart(s: string): (r: string)
    ensures |r| <= |s| && r == s[|s| - |r|..]
    ensures Blank(s[..|s| - |r|])
    ensures r == [] || !IsWhitespace(r[0])
    decreases |s|
  {
    if |s| > 0 && IsWhitespace(s[0]) then
      var r := TrimStart(s[1..]);
      assert s[..|s| - |r|] == [s[0]] + s[1..][..|s| - 1 - |r|];
      r
    else
      s
  }

  /** `s` with its trailing whitespace removed. */
  function TrimEnd(s: string): (r: string)
    ensures |r| <= |s| && r == s[..|r|]
    ensures Blank(s[|r|..])
    ensures r == [] || !IsWhitespace(r[|r| - 1])
    decreases |s|
  {
    if |s| > 0 && IsWhitespace(s[|s| - 1]) then
      var r := TrimEnd(s[..|s| - 1]);
      assert s[|r|..] == s[..|s| - 1][|r|..] + [s[|s| - 1]];
      r
    else
      s
  }

  /** `String.prototype.trim`; `TrimIsSlice` states what it removes. */
  function Trim(s: string): (r: string)
    ensures |r| <= |s|
    ensures r == [] || (!IsWhitespace(r[0]) && !IsWhitespace(r[|r| - 1]))
  {
    TrimEnd(TrimStart(s))
  }

  /** Trimming keeps the slice of `s` between its leading and its trailing
      whitespace and nothing else. */
  lemma TrimIsSlice(s: string)
    ensures exists a, b :: 0 <= a <= b <= |s| && Trim(s) == s[a..b] && Blank(s[..a]) && Blank(s[b..])
  {
    var t := TrimStart(s);
    var r := TrimEnd(t);
    var a := |s| - |t|;
    assert r == s[a..a + |r|];
    assert s[a + |r|..] == t[|r|..];
  }

  /** Number of occurrences of `c` in `s`. */
  function Count(s: string, c: char): nat {
    if |s| == 0 then 0 else (if s[0] == c then 1 else 0) + Count(s[1..], c)
  }

  /** `s.split(sep)` for a one-character separator: the maximal separator-free
      pieces between occurrences of `sep`, one more than there are separators. */
  function Split(s: string, sep: char): (parts: seq<string>)
    ensures |parts| == Count(s, sep) + 1
    ensures forall i :: 0 <= i < |parts| ==> sep !in parts[i]
    decreases |s|
  {
    if |s| == 0 then
      [""]
    else
      var rest := Split(s[1..], sep);
      if s[0] == sep then [""] + rest else [[s[0]] + rest[0]] + rest[1..]
  }

  /** `parts.join(sep)`. */
  function Join(parts: seq<string>, sep: char): string
    requires |parts| > 0
  {
    if |parts| == 1 then parts[0] else parts[0] + [sep] + Join(parts[1..], sep)
  }

  /** Splitting loses nothing: joining the pieces with the separator gives back the text. */
  lemma {:induction false} JoinSplit(s: string, sep: char)
    ensures Join(Split(s, sep), sep) == s
    decreases |s|
  {
    if |s| > 0 {
      var rest := Split(s[1..], sep);
      JoinSplit(s[1..], sep);
      if s[0] == sep {
        assert ([""] + rest)[1..] == rest;
      } else {
        var parts := [[s[0]] + rest[0]] + rest[1..];
        if |rest| > 1 {
          assert parts[1..] == rest[1..];
        }
        assert s == [s[0]] + s[1..];
      }
    }
  }

  /** Splitting a separator-free prefix `p` followed by `t` glues `p` onto the first piece of `t`. */
  lemma {:induction false} SplitPrefix(p: string, t: string, sep: char)
    requires sep !in p
    ensures Split(p + t, sep) == [p + Split(t, sep)[0]] + Split(t, sep)[1..]
    decreases |p|
  {
    if |p| > 0 {
      assert (p + t)[1..] == p[1..] + t;
      SplitPrefix(p[1..], t, sep);
      assert [p[0]] + (p[1..] + Split(t, sep)[0]) == p + Split(t, sep)[0];
    } else {
      var parts := Split(t, sep);
      assert p + t == t && p + parts[0] == parts[0];
      assert parts == [parts[0]] + parts[1..];
    }
  }

  /** Splitting inverts joining separator-free pieces. */
  lemma {:induction false} SplitJoin(parts: seq<string>, sep: char)
    requires |parts| > 0
    requires forall i :: 0 <= i < |parts| ==> sep !in parts[i]
    ensures Split(Join(parts, sep), sep) == parts
    decreases |parts|
  {
    if |parts| == 1 {
      SplitPrefix(parts[0], "", sep);
      assert parts[0] + "" == parts[0];
    } else {
      var tail := Join(parts[1..], sep);
      SplitJoin(parts[1..], sep);
      assert parts[0] + [sep] + tail == parts[0] + ([sep] + tail);
      SplitPrefix(parts[0], [sep] + tail, sep);
      assert ([sep] + tail)[1..] == tail;
      assert Split([sep] + tail, sep) == [""] + parts[1..];
      assert parts[0] + "" == parts[0];
      assert parts == [parts[0]] + parts[1..];
    }
  }

  /** Text that neither starts nor ends with whitespace is its own trim. */
  lemma TrimUnpadded(s: string)
    requires s == [] || (!IsWhitespace(s[0]) && !IsWhitespace(s[|s| - 1]))
    ensures Trim(s) == s
  {
    assert TrimStart(s) == s;
  }

  /** A leading whitespace character does not survive trimming. */
  lemma TrimDropsLeading(c: char, s: string)
    requires IsWhitespace(c)
    ensures Trim([c] + s) == Trim(s)
  {
    assert ([c] + s)[1..] == s;
  }

  /** Trimming twice is trimming once. */
  lemma TrimIdempotent(s: string)
    ensures Trim(Trim(s)) == Trim(s)
  {
    var r := Trim(s);
    assert TrimStart(r) == r;
    assert TrimEnd(r) == r;
  }
}

=== FILE: text_examples.dfy ===
/** The comma-separated variant list "101, 202,303", cut and trimmed. */
module TextExamples {
  import opened Text

  lemma ExampleTokens()
    ensures Split("101, 202,303", ',') == ["101", " 202", "303"]
  {
    var tokens := ["101", " 202", "303"];
    assert Join(tokens[2..], ',') == "303";
    assert Join(tokens[1..], ',') == " 202,303";
    assert Join(tokens, ',') == "101, 202,303";
    SplitJoin(tokens, ',');
  }

  lemma ExampleTrims()
    ensures Trim("101") == "101" && Trim(" 202") == "202" && Trim("303") == "303"
  {
    Trim101();
    Trim202();
    Trim303();
  }

  lemma Trim101()
    ensures Trim("101") == "101"
  {
    assert !IsWhitespace('1');
    TrimUnpadded("101");
  }

  lemma Trim202()
    ensures Trim(" 202") == "202"
  {
    Trim202Unpadded();
    assert " 202" == [' '] + "202";
    TrimDropsLeading(' ', "202");
  }

  lemma Trim202Unpadded()
    ensures Trim("202") == "202"
  {
    assert !IsWhitespace('2');
    TrimUnpadded("202");
  }

  lemma Trim303()
    ensures Trim("303") == "303"
  {
    assert !IsWhitespace('3');
    TrimUnpadded("303");
  }
}

=== FILE: wrappers.dfy ===
/** The optional value used wherever a JavaScript property read may yield `undefined`. */
module Wrappers {

  datatype Option<+T> = None | Some(value: T)

  function Get<K, V>(m: map<K, V>, k: K): (r: Option<V>)
    ensures r.Some? <==> k in m
    ensures r.Some? ==> r.value == m[k]
  {
    if k in m then Some(m[k]) else None
  }
}
